=== FILE: README.md ===
# SindhiPaper: a Dafny model of the client core

SindhiPaper turns a photo of an exam paper into an editable, print-ready
document. A remote multimodal model does the transcription. The client does
four things, and this project models all four:

- **Image pre-processing** (`ImageResize`). An image wider than 1000 pixels
  is scaled down to exactly 1000 wide, keeping its aspect ratio. Images at most
  1000 wide keep their size.
- **Transcription client** (`Transcription`). This covers the payload sent
  (`split(',')[1] || image`), the rejection of an empty body, the defaulting
  of every header field to `""` and of `sections` to `[]`, and the
  `OCR Failed: ` wrapping of every failure. The remote call and `JSON.parse`
  are function parameters.
- **Upload/edit controller** (`Editor`, `Session`). `Editor.Step` is a pure
  transition function over the controller record `{status, content, error,
  isEditing, inFlight}`. `Session` adds the asynchronous work of each upload
  attempt: a decode, then a remote call racing a timer. It also adds the
  rule that a user action needs its control on screen.
- **Paper preview** (`PaperPreview`). `Render` maps a document to an ordered
  list of blocks: title, exam, info row, divider, marks/time, then one block
  per section each followed by one block per question.

`Document` holds the data model of `types.ts`. `Wrappers` holds
`Option`/`Result`.

The controller uses `processingRef` (App.tsx:39, 42) as a single-flight
latch, and the model follows what the code does with it. The handlers for
success and failure (App.tsx:63-74) never read the latch. So a late result
is still applied, and the first call's `finally` clears a later attempt's
latch. The invariant the code does keep is proved: the latch is set exactly
while the status is `processing`, and then the newest attempt is still
live. An upload while in flight is ignored. These behaviours of the code are
proved as concrete facts:

- An image that never decodes hangs the session while the status is still
  `processing` and no earlier attempt is outstanding: no call in flight and
  no other image still being read or decoded. No timer is armed yet, and no control (not even reset) is on
  screen.
- A call that settles after its timer fired is not discarded. The code
  applies it (App.tsx:63-74), and the timeout message stays in `error`.
- After a timeout the uploader comes back, so calls can overlap. The first
  call's `finally` clears the latch of the second, and a third upload then
  leaves two calls in flight. The latch does not keep calls to one at a
  time.
- A late success followed by the failure of a second attempt leaves a
  document loaded with status `error`. No control is on screen and nothing
  is outstanding, so the session is stuck.

## Model

| member | source | states |
|---|---|---|
| ImageResize.Resize | App.tsx:16-23 | Wider than 1000: width becomes exactly 1000 and height is scaled by 1000/width. Otherwise the size is unchanged. The aspect ratio is always kept. |
| ImageResize.ResizeNeverEnlarges | App.tsx:20-23 | Output width is at most min(input width, 1000). Output height is at most a non-negative input height. |
| ImageResize.ResizeIdempotent | App.tsx:16-23 | Resizing an already-resized image changes nothing. |
| Document.WithHeader | App.tsx:86 | The object spread `{...content, [field]: value}` sets the named header field. Every other field, the sections and the font size are unchanged. |
| Transcription.Split | services/geminiService.ts:60 | `split(',')` returns at least one piece. No piece contains a comma, and the pieces joined with commas give back the input. |
| Transcription.Payload | services/geminiService.ts:60 | The payload is either the whole input, or the second comma-separated field of it when that field is non-empty (and then it is comma-free). |
| Transcription.PayloadWithoutComma | services/geminiService.ts:60 | An input without a comma is sent unchanged. |
| Transcription.PayloadStripsPrefix | services/geminiService.ts:60 | For `p,x` and `p,x,rest` with `p`, `x` comma-free and `x` non-empty, the payload is exactly `x`. |
| Transcription.PayloadKeepsEmptyField | services/geminiService.ts:60 | For `p,` and `p,,…` the empty second field makes `||` fall back to the whole input. |
| Transcription.OrEmpty | services/geminiService.ts:111-117 | `v \|\| ""` gives the value when present and non-empty, and `""` otherwise. |
| Transcription.Normalize | services/geminiService.ts:110-119 | Each of the seven header fields is the parsed value when present and non-empty, and `""` otherwise. `sections` is passed through untouched or defaults to `[]`. No font size is carried. |
| Transcription.NormalizeRoundTrip | services/geminiService.ts:110-119 | A fully-populated response normalises back to the same document without its font size. |
| Transcription.NormalizeIdempotent | services/geminiService.ts:110-119 | Normalising an already-normalised document gives the same document. |
| Transcription.Wrap | services/geminiService.ts:120-123 | Every error is `OCR Failed: ` followed by the underlying message, or by `Check image clarity.` when that message is empty. |
| Transcription.WrapInjective | services/geminiService.ts:122 | Distinct non-empty underlying messages give distinct wrapped messages. |
| Transcription.ProcessImage | services/geminiService.ts:51-123 | A rejected call fails with the wrapped message. An absent or empty body fails with exactly `OCR Failed: No transcription data returned.`. A parse failure fails with the parse error's message behind the prefix. It succeeds iff a non-empty body parses, and then returns the normalised response with no font size. |
| Editor.UpdateHeader | App.tsx:84-87 | Without a document, nothing. Otherwise only the named header field changes. |
| Editor.UpdateFontSize | App.tsx:84-87 | Without a document, nothing. Otherwise only the title font size changes. |
| Editor.ApplySectionEdit | App.tsx:92 | Replacing one section field leaves the other two unchanged. |
| Editor.UpdateSection | App.tsx:89-94 | Without a document, nothing. Otherwise the header and the section count are kept. Only the section at the index changes, and only in the edited field. |
| Editor.EditQuestionText | App.tsx:292-296 | Only the text of question `qIdx` of section `sIdx` changes. Its id and marks, every other question, every other section and the header are preserved. |
| Editor.UpdateHeaderUndo | App.tsx:84-87 | Without a document the edit is a no-op. Writing a header field's previous value back restores the document exactly. |
| Editor.UpdateFontSizeUndo | App.tsx:84-87 | Of two font-size edits the last one wins, and writing a set size back restores the document exactly. |
| Editor.EditQuestionTextUndo | App.tsx:292-296 | Writing a question's previous text back restores the document exactly. |
| Editor.Step | App.tsx:41-106 | The handlers as one transition. Its own contract says that the latch invariant is kept, that only an upload sets the latch, and that only a success, a reset or an edit changes the document. The full behaviour of each event is stated by the rows from `Editor.UploadIgnoredWhileInFlight` to `Editor.EditsKeepControlState`. |
| Editor.UploadIgnoredWhileInFlight | App.tsx:41-42 | An upload while the latch is set leaves the whole state unchanged. |
| Editor.UploadAccepted | App.tsx:41-81 | An accepted upload sets `processing`, clears the error and sets the latch. A synchronous read failure gives `error` with `Upload failed.` and a clear latch. |
| Editor.CallSucceededLoads | App.tsx:63-74 | Success loads the result with font size 22, sets `success` and clears the latch. The flag is not checked, and any earlier error message is kept. |
| Editor.CallFailedReports | App.tsx:68-74 | Failure sets the message, or the fixed fallback when it is empty. It also sets `error` and clears the latch. |
| Editor.TimerActsOnlyInFlight | App.tsx:55-61 | The timer acts iff the latch is set. It then sets `error` with the timeout message and clears the latch. |
| Editor.ResetFromAnyState | App.tsx:100-106 | Reset from any state gives `idle`, no document, no error, not editing and a clear latch. |
| Editor.EditsKeepControlState | App.tsx:84-94 | Edits never change the status, the error or the latch. |
| Editor.StepKeepsLatchMatchingStatus | App.tsx:41-106 | Every event keeps "latch set iff status is `processing`". |
| Editor.UploadsIgnoredWhileInFlight | App.tsx:42 | Any sequence of uploads while in flight leaves the state unchanged. |
| Editor.LatchHeldUntilCleared | App.tsx:46-74 | Once set, the latch and `processing` persist until a call settles, the timer fires or a reset happens. |
| Editor.RunKeepsLatchMatchingStatus | App.tsx:41-106 | "Latch set iff `processing`" holds after every event sequence. |
| Session.Enabled | App.tsx:125-207 | Which occurrences can happen. A user event needs the uploader (App.tsx:151) or the result view (App.tsx:125, 207) on screen. Reset is also offered by the error card's RETRY button (App.tsx:168), which sits inside the uploader. A finished attempt has no continuation left. `Session.NoUploadWhileInFlight`, `Session.StalledWithoutDecode` and `Session.LoadedErrorDeadEnd` state its consequences. |
| Session.Occur | App.tsx:50-74 | The continuations of an attempt, and user events applied through `Editor.Step`. At most one attempt is added, and only by an accepted upload, which sets the latch. A finished attempt stays finished. `Session.OccurKeepsConsistent` and the trace rows state the rest. |
| Session.OccurKeepsConsistent | App.tsx:41-82 | Every possible occurrence keeps the invariant: latch iff `processing`, and then the newest attempt is still live. |
| Session.ReplayKeepsConsistent | App.tsx:41-82 | The invariant holds in every reachable world. |
| Session.NoUploadWhileInFlight | App.tsx:151-173 | While in flight the uploader is hidden, so no upload can be issued, and one that was issued would be ignored. |
| Session.StalledWithoutDecode | App.tsx:10-31 | While `processing` with no call outstanding, only a decode completion is possible. No timer is armed before compression finishes, and compression has no error path. |
| Session.UndecodableImageHangs | App.tsx:52-55 | While `processing` with no call in flight, a trace in which no image at all decodes changes nothing: no other occurrence applies and the latch stays set. |
| Session.NewestUndecodableImageHangs | App.tsx:52-55 | While the status is still `processing`, when every earlier attempt has finished and the newest attempt's image never decodes, no other occurrence ever applies. The session stays in `processing` for good. |
| Session.TimeoutLeavesCallOutstanding | App.tsx:55-61 | A timeout shows the error screen and clears the latch while the call is still outstanding. |
| Session.LateSuccessOverwritesTimeout | App.tsx:63-74 | A success arriving after the timeout replaces the error screen with the result, and the timeout message stays set. |
| Session.SecondAttemptLosesLatch | App.tsx:72-74 | The first call's `finally` clears the latch that a second upload set, while the second call is still outstanding. |
| Session.OverlappingCalls | App.tsx:151-173 | A reachable trace has two calls in flight at once. |
| Session.LoadedErrorDeadEnd | App.tsx:63-74 | After a timeout, a second upload, a late success of the first call and a failure of the second leave a document loaded with status `error`. No occurrence at all is then possible. |
| Session.ServiceFailureShown | App.tsx:68-71 | A `processImage` failure is shown as an error that starts with `OCR Failed: `. |
| PaperPreview.TitleFontSize | components/PaperPreview.tsx:10-12 | The title font size is `mainTitleFontSize` when present and non-zero, and 22 otherwise. It is never 0. |
| PaperPreview.MarksSpans | components/PaperPreview.tsx:64-69 | The spans are the non-empty ones of total marks and time allowed, with total marks first. |
| PaperPreview.HeadingOf | components/PaperPreview.tsx:76-86 | A heading appears iff the title is non-empty. Its instructions appear iff they are non-empty, and only inside a shown heading. |
| PaperPreview.ItemOf | components/PaperPreview.tsx:90-101 | A question's text is always shown. Its marks are shown iff present and non-empty. |
| PaperPreview.TitleShownIffInstitution | components/PaperPreview.tsx:23-32 | A title block appears iff the institution name is non-empty, and it uses the title font size. |
| PaperPreview.ExamShownIffExamName | components/PaperPreview.tsx:35-41 | An exam block appears iff the exam name is non-empty. |
| PaperPreview.InfoRowShownIffInfo | components/PaperPreview.tsx:44-56 | The info row appears iff class, subject or date is non-empty. Its cells are in the order class, subject, date. |
| PaperPreview.DividerShownIffHeaderContent | components/PaperPreview.tsx:59-61 | The divider appears iff institution, exam, class, subject or date is non-empty. |
| PaperPreview.DividerFollowsHeader | components/PaperPreview.tsx:14-61 | The divider appears iff a title, exam or info-row block appears above it. Marks and time do not count. |
| PaperPreview.MarksRowShownIffMarksOrTime | components/PaperPreview.tsx:64-69 | The marks/time row appears iff either field is non-empty, and it holds exactly the non-empty spans. |
| PaperPreview.RenderInPageOrder | components/PaperPreview.tsx:22-108 | Blocks come in the order title, exam, info row, divider, marks/time, then sections. Each header kind appears at most once. |
| PaperPreview.RenderSectionsInOrder | components/PaperPreview.tsx:73-103 | There is one section block per section and one question block per question, both in input order. |
| PaperPreview.RenderGroups | components/PaperPreview.tsx:73-103 | Cut at every section block, the page shows section k as its own heading followed by exactly its own questions' blocks, in input order, before the next section. |
| PaperPreview.Render | components/PaperPreview.tsx:9-111 | The preview as header blocks followed by section blocks. It has at most five header blocks, one block per section and one per question. Visibility, order and grouping are stated by the `PaperPreview` rows above. |

## Left out

- ImageResize.Resize: uses exact real arithmetic. It does not model the IEEE rounding of `height *= MAX_WIDTH / width` or the canvas's integer truncation of the dimensions.
- Image decoding, canvas drawing and JPEG re-encoding at quality 0.7 are not modelled. They are browser facilities. Their only modelled effect is the `Decoded` occurrence, which may never come.
- `FileReader` is a browser facility. A synchronous failure of `readAsDataURL` is the `readable` flag of `Editor.Upload` (App.tsx:76-81). The asynchronous read and the image decode together are the `Decoding` stage of an attempt in `Session`.
- The `generateContent` call, the prompt text, the response schema and `JSON.parse` are foreign calls. They appear as the `call` and `parse` parameters of `ProcessImage`, and the parsed body is the optional-field record `Response`.
- The `GeminiService` constructor's API-key check and its console logging are not modelled. They read the build environment. The `console.error` in `processImage`'s catch (services/geminiService.ts:121) is not modelled either, because it has no effect on the result.
- Real time is not modelled. The 30-second timer is the `Fired` occurrence. The print button (`handlePrint`, its 100 ms delay and `window.print`) is left out.
- components/Uploader.tsx only forwards the first selected or dropped file. It is the `Upload` event, shown only while the uploader is on screen.
- JSX layout, CSS, right-to-left direction and the page dimensions are not modelled. Only block visibility and order are.
- Editor.UpdateSection: requires an in-range index when a document is loaded. The only caller passes the index of an existing section. JavaScript would grow the array for a larger index, and that is not modelled. For the same reason `Step` ignores an `EditQuestion` event whose indices are out of range.
- Font sizes are integers. `NaN` (from `parseInt`) is not modelled.
- The parsed body is assumed to match its declared field types. A non-string header value is not modelled.
- An absent section title or instructions value is treated as empty. The preview renders it the same as an empty one (components/PaperPreview.tsx:76). An absent question list is ruled out by the response schema's `required: ["questions"]` (services/geminiService.ts:96). The preview would guard against it (components/PaperPreview.tsx:90), but the edit form would not (App.tsx:286).
- The response schema gives a question only `text` and `marks` (services/geminiService.ts:86-92). So a transcribed question has no `id`. `Question.id` is kept from `types.ts`. Edits only carry it along unchanged, and the preview never shows it.
- React state updates within one handler are treated as one atomic transition. Intermediate renders between them are not modelled.
- The `uploading` status is declared but never entered by the code.

=== FILE: document.dfy ===
/** The transcribed question paper (types.ts): header fields, sections,
    questions, and the editor's processing status. */
module Document {
  import opened Wrappers

  /** One transcribed question; `marks` is optional in the source. */
  datatype Question = Question(id: string, text: string, marks: Option<string>)

  /** A titled group of questions, kept in print order. */
  datatype Section = Section(title: string, instructions: string, questions: seq<Question>)

  /** The whole document: seven header strings, the sections, and an
      optional title font size (a number in the source, an integer here). */
  datatype Paper = Paper(
    institutionName: string,
    examName: string,
    subject: string,
    classGrade: string,
    totalMarks: string,
    timeAllowed: string,
    date: string,
    sections: seq<Section>,
    mainTitleFontSize: Option<int>)

  /** The editor's processing status (`uploading` is declared but never entered). */
  datatype Status = Idle | Uploading | Processing | Success | Error

  /** The seven string-valued header keys of a paper. */
  datatype HeaderField =
    | InstitutionName | ExamName | Subject | ClassGrade | TotalMarks | TimeAllowed | Date

  /** Reads one header field by key. */
  function Header(p: Paper, f: HeaderField): string {
    match f
    case InstitutionName => p.institutionName
    case ExamName => p.examName
    case Subject => p.subject
    case ClassGrade => p.classGrade
    case TotalMarks => p.totalMarks
    case TimeAllowed => p.timeAllowed
    case Date => p.date
  }

  /** Two papers agree on every header field and on the title font size. */
  predicate SameHeader(p: Paper, q: Paper) {
    && (forall f: HeaderField :: Header(p, f) == Header(q, f))
    && p.mainTitleFontSize == q.mainTitleFontSize
  }

  /** The paper with one header field replaced: `{ ...p, [f]: v }`. */
  function WithHeader(p: Paper, f: HeaderField, v: string): (q: Paper)
    ensures Header(q, f) == v
    ensures forall g: HeaderField :: g != f ==> Header(q, g) == Header(p, g)
    ensures q.sections == p.sections
    ensures q.mainTitleFontSize == p.mainTitleFontSize
  {
    match f
    case InstitutionName => p.(institutionName := v)
    case ExamName => p.(examName := v)
    case Subject => p.(subject := v)
    case ClassGrade => p.(classGrade := v)
    case TotalMarks => p.(totalMarks := v)
    case TimeAllowed => p.(timeAllowed := v)
    case Date => p.(date := v)
  }
}

=== FILE: editor.dfy ===
/** The upload/edit controller of App.tsx as a pure transition function
    over its state record: the processing status, the loaded document, the
    error message, the edit-mode flag and the in-flight latch. Asynchronous
    continuations (compression finishing, the call settling, the timer)
    arrive as events; which of them can occur is the business of `Session`. */
module Editor {
  import opened Wrappers
  import opened Document

  /** The message set when the 30-second timer fires first. */
  const TimeoutMessage: string := "The transcription process timed out. Please try a smaller or clearer image."

  /** The message set when a failed call carries no message of its own. */
  const FailureFallback: string := "Processing failed. Ensure image has clear text."

  /** The message set when reading the file throws synchronously. */
  const UploadFailedMessage: string := "Upload failed."

  /** The title font size attached to every freshly transcribed document. */
  const LoadedFontSize: int := 22

  /** The controller's state (`status`, `content`, `error`, `isEditing`
      and `processingRef`). */
  datatype State = State(
    status: Status,
    content: Option<Paper>,
    error: Option<string>,
    isEditing: bool,
    inFlight: bool)

  /** The state on first render and after a reset. */
  const Initial: State := State(Idle, None, None, false, false)

  /** One field of a section replaced by `updateSection`. */
  datatype SectionEdit =
    | SetTitle(title: string)
    | SetInstructions(instructions: string)
    | SetQuestions(questions: seq<Question>)

  /** What can happen to the controller. `Upload(readable)` is a file
      handed to `handleUpload`; `readable` is false when starting the file
      read throws. The next four are asynchronous continuations. */
  datatype Event =
    | Upload(readable: bool)
    | CompressDone
    | CallSucceeded(doc: Paper)
    | CallFailed(message: string)
    | TimerFired
    | Reset
    | EditHeader(field: HeaderField, value: string)
    | EditFontSize(size: int)
    | EditQuestion(sectionIndex: nat, questionIndex: nat, text: string)
    | SetEditing(on: bool)

  // ---------------------------------------------------------------------
  // Copy-on-write edits
  // ---------------------------------------------------------------------

  /** `updateHeader` for one of the seven string fields: nothing without a
      document, otherwise only that field changes. */
  function UpdateHeader(content: Option<Paper>, f: HeaderField, v: string): (r: Option<Paper>)
    ensures content.None? ==> r.None?
    ensures content.Some? ==> r.Some?
    ensures content.Some? ==> Header(r.value, f) == v
    ensures content.Some? ==> forall g: HeaderField :: g != f ==> Header(r.value, g) == Header(content.value, g)
    ensures content.Some? ==> r.value.sections == content.value.sections
    ensures content.Some? ==> r.value.mainTitleFontSize == content.value.mainTitleFontSize
  {
    match content
    case None => None
    case Some(p) => Some(WithHeader(p, f, v))
  }

  /** `updateHeader('mainTitleFontSize', n)`: nothing without a document,
      otherwise only the font size changes. */
  function UpdateFontSize(content: Option<Paper>, size: int): (r: Option<Paper>)
    ensures content.None? ==> r.None?
    ensures content.Some? ==> r.Some? && r.value.mainTitleFontSize == Some(size)
    ensures content.Some? ==> forall g: HeaderField :: Header(r.value, g) == Header(content.value, g)
    ensures content.Some? ==> r.value.sections == content.value.sections
  {
    match content
    case None => None
    case Some(p) => Some(p.(mainTitleFontSize := Some(size)))
  }

  /** Applies one field edit to a section. */
  function ApplySectionEdit(sec: Section, edit: SectionEdit): (r: Section)
    ensures edit.SetTitle? ==> r.title == edit.title && r.instructions == sec.instructions && r.questions == sec.questions
    ensures edit.SetInstructions? ==> r.title == sec.title && r.instructions == edit.instructions && r.questions == sec.questions
    ensures edit.SetQuestions? ==> r.title == sec.title && r.instructions == sec.instructions && r.questions == edit.questions
  {
    match edit
    case SetTitle(t) => sec.(title := t)
    case SetInstructions(i) => sec.(instructions := i)
    case SetQuestions(qs) => sec.(questions := qs)
  }

  /** `updateSection`: nothing without a document, otherwise only the
      section at `index` is replaced, by itself with one field edited. */
  function UpdateSection(content: Option<Paper>, index: nat, edit: SectionEdit): (r: Option<Paper>)
    requires content.Some? ==> index < |content.value.sections|
    ensures content.None? ==> r.None?
    ensures content.Some? ==> r.Some? && SameHeader(r.value, content.value)
    ensures content.Some? ==> |r.value.sections| == |content.value.sections|
    ensures content.Some? ==> r.value.sections[index] == ApplySectionEdit(content.value.sections[index], edit)
    ensures content.Some? ==>
      forall j :: 0 <= j < |content.value.sections| && j != index ==> r.value.sections[j] == content.value.sections[j]
  {
    match content
    case None => None
    case Some(p) =>
      Some(p.(sections := p.sections[index := ApplySectionEdit(p.sections[index], edit)]))
  }

  /** There is a document with a section `si` holding a question `qi`. */
  predicate QuestionInRange(content: Option<Paper>, si: nat, qi: nat) {
    content.Some? && si < |content.value.sections| && qi < |content.value.sections[si].questions|
  }

  /** The inline question editor: replaces the text of question `qi` in
      section `si` through `updateSection(si, 'questions', …)`. Only that
      text changes; ids, marks, other questions, other sections and the
      header are untouched. */
  function EditQuestionText(content: Option<Paper>, si: nat, qi: nat, text: string): (r: Option<Paper>)
    requires QuestionInRange(content, si, qi)
    ensures r.Some? && SameHeader(r.value, content.value)
    ensures |r.value.sections| == |content.value.sections|
    ensures forall j :: 0 <= j < |content.value.sections| && j != si ==> r.value.sections[j] == content.value.sections[j]
    ensures r.value.sections[si].title == content.value.sections[si].title
    ensures r.value.sections[si].instructions == content.value.sections[si].instructions
    ensures |r.value.sections[si].questions| == |content.value.sections[si].questions|
    ensures forall k :: 0 <= k < |content.value.sections[si].questions| && k != qi ==>
      r.value.sections[si].questions[k] == content.value.sections[si].questions[k]
    ensures r.value.sections[si].questions[qi].text == text
    ensures r.value.sections[si].questions[qi].id == content.value.sections[si].questions[qi].id
    ensures r.value.sections[si].questions[qi].marks == content.value.sections[si].questions[qi].marks
  {
    var sec := content.value.sections[si];
    var qs := sec.questions[qi := sec.questions[qi].(text := text)];
    UpdateSection(content, si, SetQuestions(qs))
  }

  /** Writing a header field back to its previous value restores the
      document exactly. */
  lemma UpdateHeaderUndo(content: Option<Paper>, f: HeaderField, v: string)
    ensures content.None? ==> UpdateHeader(content, f, v) == content
    ensures content.Some? ==> UpdateHeader(UpdateHeader(content, f, v), f, Header(content.value, f)) == content
  {
  }

  /** A font-size edit loses nothing but the previous size: the last of two
      edits wins, and writing a set size back restores the document. */
  lemma UpdateFontSizeUndo(content: Option<Paper>, a: int, b: int)
    ensures UpdateFontSize(UpdateFontSize(content, a), b) == UpdateFontSize(content, b)
    ensures content.Some? && content.value.mainTitleFontSize.Some? ==>
      UpdateFontSize(UpdateFontSize(content, a), content.value.mainTitleFontSize.value) == content
  {
  }

  /** Writing a question's previous text back restores the document
      exactly: the edit loses nothing but that one text. */
  lemma EditQuestionTextUndo(content: Option<Paper>, si: nat, qi: nat, text: string)
    requires QuestionInRange(content, si, qi)
    ensures QuestionInRange(EditQuestionText(content, si, qi, text), si, qi)
    ensures EditQuestionText(EditQuestionText(content, si, qi, text), si, qi, content.value.sections[si].questions[qi].text) == content
  {
    var p := content.value;
    var once := EditQuestionText(content, si, qi, text);
    var twice := EditQuestionText(once, si, qi, p.sections[si].questions[qi].text);
    var q := twice.value;
    assert q.sections[si].questions == p.sections[si].questions;
    assert q.sections[si] == p.sections[si];
    assert q.sections == p.sections;
    assert forall f: HeaderField :: Header(q, f) == Header(p, f);
  }

  // ---------------------------------------------------------------------
  // The transition function
  // ---------------------------------------------------------------------

  /** One event applied to the controller state. */
  function Step(s: State, e: Event): (r: State)
    ensures LatchMatchesStatus(s) ==> LatchMatchesStatus(r)
    ensures r.inFlight && !s.inFlight ==> e.Upload?
    ensures r.content != s.content ==> e.CallSucceeded? || e.Reset? || e.EditHeader? || e.EditFontSize? || e.EditQuestion?
  {
    match e
    case Upload(readable) =>
      if s.inFlight then s
      else if readable then s.(status := Processing, error := None, inFlight := true)
      else s.(status := Error, error := Some(UploadFailedMessage), inFlight := false)
    case CompressDone => s
    case CallSucceeded(doc) =>
      s.(content := Some(doc.(mainTitleFontSize := Some(LoadedFontSize))), status := Success, inFlight := false)
    case CallFailed(message) =>
      s.(error := Some(if message == "" then FailureFallback else message), status := Error, inFlight := false)
    case TimerFired =>
      if s.inFlight then s.(error := Some(TimeoutMessage), status := Error, inFlight := false) else s
    case Reset => Initial
    case EditHeader(f, v) => s.(content := UpdateHeader(s.content, f, v))
    case EditFontSize(size) => s.(content := UpdateFontSize(s.content, size))
    case EditQuestion(si, qi, text) =>
      if QuestionInRange(s.content, si, qi) then s.(content := EditQuestionText(s.content, si, qi, text)) else s
    case SetEditing(on) => s.(isEditing := on)
  }

  /** A sequence of events applied in order. */
  function Run(s: State, events: seq<Event>): State
    decreases |events|
  {
    if |events| == 0 then s else Run(Step(s, events[0]), events[1..])
  }

  /** The events after which the in-flight latch is certainly clear. */
  predicate ClearsLatch(e: Event) {
    e.CallSucceeded? || e.CallFailed? || e.TimerFired? || e.Reset?
  }

  /** The latch is set exactly while the status is `processing`. */
  predicate LatchMatchesStatus(s: State) {
    s.inFlight <==> s.status == Processing
  }

  // ---------------------------------------------------------------------
  // Properties of single events
  // ---------------------------------------------------------------------

  /** An upload while a transcription is in flight changes nothing. */
  lemma UploadIgnoredWhileInFlight(s: State, readable: bool)
    requires s.inFlight
    ensures Step(s, Upload(readable)) == s
  {
  }

  /** An accepted upload enters `processing`, clears the error and sets the
      latch; an unreadable file ends in `error` with the upload message. The
      document and the edit flag are untouched either way. */
  lemma UploadAccepted(s: State, readable: bool)
    requires !s.inFlight
    ensures readable ==> Step(s, Upload(readable)) == State(Processing, s.content, None, s.isEditing, true)
    ensures !readable ==> Step(s, Upload(readable)) == State(Error, s.content, Some(UploadFailedMessage), s.isEditing, false)
  {
  }

  /** A successful call loads the document with font size 22 and clears the
      latch, whatever the latch was; an earlier error message survives. */
  lemma CallSucceededLoads(s: State, doc: Paper)
    ensures Step(s, CallSucceeded(doc)) == State(Success, Some(doc.(mainTitleFontSize := Some(22))), s.error, s.isEditing, false)
  {
  }

  /** A failed call reports its message, or the fixed fallback for an empty
      one, and clears the latch; the document is untouched. */
  lemma CallFailedReports(s: State, message: string)
    ensures message != "" ==> Step(s, CallFailed(message)) == State(Error, s.content, Some(message), s.isEditing, false)
    ensures message == "" ==> Step(s, CallFailed(message)) == State(Error, s.content, Some(FailureFallback), s.isEditing, false)
  {
  }

  /** The timer acts iff the latch is still set: it then reports the timeout
      and clears the latch; otherwise nothing changes. */
  lemma TimerActsOnlyInFlight(s: State)
    ensures s.inFlight ==> Step(s, TimerFired) == State(Error, s.content, Some(TimeoutMessage), s.isEditing, false)
    ensures !s.inFlight <==> Step(s, TimerFired) == s
  {
  }

  /** A reset from any state returns to the initial state. */
  lemma ResetFromAnyState(s: State)
    ensures Step(s, Reset) == State(Idle, None, None, false, false)
  {
  }

  /** Edits never touch the status, the error or the latch. */
  lemma EditsKeepControlState(s: State, e: Event)
    requires e.EditHeader? || e.EditFontSize? || e.EditQuestion? || e.SetEditing?
    ensures Step(s, e).status == s.status && Step(s, e).error == s.error && Step(s, e).inFlight == s.inFlight
  {
  }

  /** Every event keeps the latch in step with the `processing` status. */
  lemma StepKeepsLatchMatchingStatus(s: State, e: Event)
    requires LatchMatchesStatus(s)
    ensures LatchMatchesStatus(Step(s, e))
  {
  }

  // ---------------------------------------------------------------------
  // Properties of event sequences
  // ---------------------------------------------------------------------

  /** Any number of uploads while in flight are all ignored. */
  lemma {:induction false} UploadsIgnoredWhileInFlight(s: State, events: seq<Event>)
    requires s.inFlight
    requires forall i :: 0 <= i < |events| ==> events[i].Upload?
    ensures Run(s, events) == s
    decreases |events|
  {
    if |events| > 0 {
      UploadIgnoredWhileInFlight(s, events[0].readable);
      UploadsIgnoredWhileInFlight(s, events[1..]);
    }
  }

  /** Once set, the latch stays set, and the status stays `processing`,
      until a call settles, the timer fires or the user resets. */
  lemma {:induction false} LatchHeldUntilCleared(s: State, events: seq<Event>)
    requires s.inFlight && s.status == Processing
    requires forall i :: 0 <= i < |events| ==> !ClearsLatch(events[i])
    ensures Run(s, events).inFlight && Run(s, events).status == Processing
    ensures Run(s, events).error == s.error
    decreases |events|
  {
    if |events| > 0 {
      var t := Step(s, events[0]);
      assert t.inFlight && t.status == Processing && t.error == s.error;
      LatchHeldUntilCleared(t, events[1..]);
    }
  }

  /** The latch invariant holds after any sequence of events from any state
      that satisfies it, in particular from the initial state. */
  lemma {:induction false} RunKeepsLatchMatchingStatus(s: State, events: seq<Event>)
    requires LatchMatchesStatus(s)
    ensures LatchMatchesStatus(Run(s, events))
    decreases |events|
  {
    if |events| > 0 {
      StepKeepsLatchMatchingStatus(s, events[0]);
      RunKeepsLatchMatchingStatus(Step(s, events[0]), events[1..]);
    }
  }
}

=== FILE: image_resize.dfy ===
/** The dimension rule of the image pre-processor (`compressImage` in
    App.tsx), over exact reals. Decoding, canvas drawing and JPEG
    re-encoding are not modelled. */
module ImageResize {

  /** The width cap, in pixels. */
  const MaxWidth: real := 1000.0

  /** Width and height of an image. */
  datatype Size = Size(width: real, height: real)

  /** Images wider than the cap are scaled down to exactly the cap's width,
      keeping the aspect ratio; narrower images keep their dimensions. */
  function Resize(s: Size): (r: Size)
    ensures s.width > MaxWidth ==> r.width == MaxWidth && r.height * s.width == s.height * MaxWidth
    ensures s.width <= MaxWidth ==> r == s
    ensures r.width * s.height == r.height * s.width
  {
    if s.width > MaxWidth then Size(MaxWidth, s.height * (MaxWidth / s.width)) else s
  }

  /** The output width never exceeds the cap nor the input width, and the
      output height never exceeds a non-negative input height. */
  lemma ResizeNeverEnlarges(s: Size)
    requires s.height >= 0.0
    ensures Resize(s).width <= MaxWidth
    ensures Resize(s).width <= s.width
    ensures Resize(s).height <= s.height
  {
    if s.width > MaxWidth {
      var f := MaxWidth / s.width;
      assert 0.0 < f < 1.0;
      assert Resize(s).height == s.height * f;
    }
  }

  /** Resizing an already-resized image changes nothing. */
  lemma ResizeIdempotent(s: Size)
    ensures Resize(Resize(s)) == Resize(s)
  {
  }
}

=== FILE: paper_preview.dfy ===
/** What the paper preview (components/PaperPreview.tsx) shows, as an
    ordered list of blocks: which header rows appear, the divider, the
    marks/time row, then one block per section each followed by one block per
    question. Layout, styling and text direction are not modelled. */
module PaperPreview {
  import opened Wrappers
  import opened Document

  /** The title font size used when none (or zero) is set. */
  const DefaultTitleFontSize: int := 22

  /** A section's heading row: its title, and its instructions if shown. */
  datatype Heading = Heading(title: string, instructions: Option<string>)

  /** One rendered block. */
  datatype Block =
    | Title(text: string, fontSize: int)
    | Exam(text: string)
    | InfoRow(classGrade: string, subject: string, date: string)
    | Divider
    | MarksTime(spans: seq<string>)
    | SectionStart(heading: Option<Heading>)
    | QuestionItem(text: string, marks: Option<string>)

  /** `content.mainTitleFontSize || 22`. */
  function TitleFontSize(p: Paper): (n: int)
    ensures n != 0
    ensures p.mainTitleFontSize.Some? && p.mainTitleFontSize.value != 0 ==> n == p.mainTitleFontSize.value
    ensures p.mainTitleFontSize.None? || p.mainTitleFontSize.value == 0 ==> n == DefaultTitleFontSize
  {
    match p.mainTitleFontSize
    case Some(n) => if n != 0 then n else DefaultTitleFontSize
    case None => DefaultTitleFontSize
  }

  /** `hasHeaderContent`: one of the five upper header fields is non-empty
      (total marks and time allowed do not count). */
  predicate HasHeaderContent(p: Paper) {
    p.institutionName != "" || p.examName != "" || p.classGrade != "" || p.subject != "" || p.date != ""
  }

  /** A one-block sequence when `c` holds, empty otherwise. */
  function When(c: bool, b: Block): seq<Block> {
    if c then [b] else []
  }

  /** The non-empty ones of total marks and time allowed, in that order. */
  function MarksSpans(p: Paper): (spans: seq<string>)
    ensures |spans| == (if p.totalMarks != "" then 1 else 0) + (if p.timeAllowed != "" then 1 else 0)
    ensures forall i :: 0 <= i < |spans| ==> spans[i] != ""
    ensures p.totalMarks != "" ==> spans[0] == p.totalMarks
    ensures p.timeAllowed != "" ==> spans[|spans| - 1] == p.timeAllowed
  {
    (if p.totalMarks != "" then [p.totalMarks] else []) + (if p.timeAllowed != "" then [p.timeAllowed] else [])
  }

  /** The header blocks, top to bottom. */
  function HeaderBlocks(p: Paper): seq<Block> {
    When(p.institutionName != "", Title(p.institutionName, TitleFontSize(p)))
    + When(p.examName != "", Exam(p.examName))
    + When(p.classGrade != "" || p.subject != "" || p.date != "", InfoRow(p.classGrade, p.subject, p.date))
    + When(HasHeaderContent(p), Divider)
    + When(p.totalMarks != "" || p.timeAllowed != "", MarksTime(MarksSpans(p)))
  }

  /** The heading row of a section: shown only for a non-empty title, with
      the instructions inside it only when they are non-empty. */
  function HeadingOf(sec: Section): (h: Option<Heading>)
    ensures h.Some? <==> sec.title != ""
    ensures h.Some? ==> h.value.title == sec.title
    ensures h.Some? ==> (h.value.instructions.Some? <==> sec.instructions != "")
    ensures h.Some? && h.value.instructions.Some? ==> h.value.instructions.value == sec.instructions
  {
    if sec.title == "" then None
    else Some(Heading(sec.title, if sec.instructions == "" then None else Some(sec.instructions)))
  }

  /** A question's block: the text always, the marks only when non-empty. */
  function ItemOf(q: Question): (b: Block)
    ensures b.QuestionItem? && b.text == q.text
    ensures b.marks.Some? <==> q.marks.Some? && q.marks.value != ""
    ensures b.marks.Some? ==> b.marks == q.marks
  {
    QuestionItem(q.text, if q.marks.Some? && q.marks.value != "" then q.marks else None)
  }

  /** The blocks of a sequence of questions, in order. */
  function QuestionBlocks(qs: seq<Question>): seq<Block>
    decreases |qs|
  {
    if |qs| == 0 then [] else [ItemOf(qs[0])] + QuestionBlocks(qs[1..])
  }

  /** The blocks of the sections: each section's start, then its questions. */
  function SectionBlocks(secs: seq<Section>): seq<Block>
    decreases |secs|
  {
    if |secs| == 0 then []
    else [SectionStart(HeadingOf(secs[0]))] + QuestionBlocks(secs[0].questions) + SectionBlocks(secs[1..])
  }

  /** The whole preview. */
  function Render(p: Paper): (bs: seq<Block>)
    ensures |HeaderBlocks(p)| <= 5
    ensures |bs| == |HeaderBlocks(p)| + |p.sections| + |AllQuestions(p.sections)|
  {
    SectionBlocksLength(p.sections);
    HeaderBlocks(p) + SectionBlocks(p.sections)
  }

  /** One block per section and one per question. */
  lemma {:induction false} SectionBlocksLength(secs: seq<Section>)
    ensures |SectionBlocks(secs)| == |secs| + |AllQuestions(secs)|
    decreases |secs|
  {
    if |secs| > 0 {
      SectionBlocksLength(secs[1..]);
      QuestionBlocksAreItems(secs[0].questions);
    }
  }

  // ---------------------------------------------------------------------
  // Reference views of a block list
  // ---------------------------------------------------------------------

  /** The position of a block kind in the fixed top-to-bottom order. */
  function Rank(b: Block): nat {
    match b
    case Title(_, _) => 0
    case Exam(_) => 1
    case InfoRow(_, _, _) => 2
    case Divider => 3
    case MarksTime(_) => 4
    case SectionStart(_) => 5
    case QuestionItem(_, _) => 5
  }

  /** The rank of section and question blocks. */
  const BodyRank: nat := 5

  /** Ranks never go down, and header kinds never repeat. */
  predicate InPageOrder(bs: seq<Block>) {
    forall i, j :: 0 <= i < j < |bs| ==> Rank(bs[i]) < Rank(bs[j]) || (Rank(bs[i]) == BodyRank && Rank(bs[j]) == BodyRank)
  }

  /** The headings of the section blocks, in order. */
  function Headings(bs: seq<Block>): seq<Option<Heading>>
    decreases |bs|
  {
    if |bs| == 0 then []
    else (if bs[0].SectionStart? then [bs[0].heading] else []) + Headings(bs[1..])
  }

  /** The question blocks, in order. */
  function Items(bs: seq<Block>): seq<Block>
    decreases |bs|
  {
    if |bs| == 0 then []
    else (if bs[0].QuestionItem? then [bs[0]] else []) + Items(bs[1..])
  }

  /** All questions of all sections, section by section. */
  function AllQuestions(secs: seq<Section>): seq<Question>
    decreases |secs|
  {
    if |secs| == 0 then [] else secs[0].questions + AllQuestions(secs[1..])
  }

  /** One section as the page shows it: its heading and the blocks that
      follow its start up to the next section. */
  datatype Group = Group(heading: Option<Heading>, items: seq<Block>)

  /** The blocks before the next section start. */
  function UntilSection(bs: seq<Block>): seq<Block>
    decreases |bs|
  {
    if |bs| == 0 || bs[0].SectionStart? then [] else [bs[0]] + UntilSection(bs[1..])
  }

  /** The page cut at every section start: one group per section block,
      holding what follows it up to the next one. */
  function Groups(bs: seq<Block>): seq<Group>
    decreases |bs|
  {
    if |bs| == 0 then []
    else if bs[0].SectionStart? then [Group(bs[0].heading, UntilSection(bs[1..]))] + Groups(bs[1..])
    else Groups(bs[1..])
  }

  /** No block of the list starts a section. */
  predicate NoSectionStart(bs: seq<Block>) {
    forall i :: 0 <= i < |bs| ==> !bs[i].SectionStart?
  }

  // ---------------------------------------------------------------------
  // Header visibility
  // ---------------------------------------------------------------------

  /** Section and question blocks are the only blocks of the body. */
  lemma {:induction false} QuestionBlocksAreItems(qs: seq<Question>)
    ensures |QuestionBlocks(qs)| == |qs|
    ensures forall i :: 0 <= i < |qs| ==> QuestionBlocks(qs)[i] == ItemOf(qs[i])
    decreases |qs|
  {
    if |qs| > 0 {
      QuestionBlocksAreItems(qs[1..]);
    }
  }

  /** Every block of the section list has the body rank. */
  lemma {:induction false} SectionBlocksAreBody(secs: seq<Section>)
    ensures forall b :: b in SectionBlocks(secs) ==> Rank(b) == BodyRank
    decreases |secs|
  {
    if |secs| > 0 {
      QuestionBlocksAreItems(secs[0].questions);
      SectionBlocksAreBody(secs[1..]);
      var qb := QuestionBlocks(secs[0].questions);
      assert forall b :: b in qb ==> b.QuestionItem? by {
        forall b | b in qb ensures b.QuestionItem? {
          var i :| 0 <= i < |qb| && qb[i] == b;
        }
      }
    }
  }

  /** A `When` block list is ordered and holds its block iff the condition. */
  lemma WhenFacts(c: bool, x: Block)
    ensures InPageOrder(When(c, x))
    ensures forall y :: y in When(c, x) <==> c && y == x
  {
  }

  /** The header holds exactly the blocks whose conditions hold. */
  lemma HeaderMembers(p: Paper)
    ensures forall b :: b in HeaderBlocks(p) <==>
      || (p.institutionName != "" && b == Title(p.institutionName, TitleFontSize(p)))
      || (p.examName != "" && b == Exam(p.examName))
      || ((p.classGrade != "" || p.subject != "" || p.date != "") && b == InfoRow(p.classGrade, p.subject, p.date))
      || (HasHeaderContent(p) && b == Divider)
      || ((p.totalMarks != "" || p.timeAllowed != "") && b == MarksTime(MarksSpans(p)))
  {
    var ct, ce, ci, cd, cm := p.institutionName != "", p.examName != "",
      p.classGrade != "" || p.subject != "" || p.date != "", HasHeaderContent(p), p.totalMarks != "" || p.timeAllowed != "";
    var bt, be, bi, bm := Title(p.institutionName, TitleFontSize(p)), Exam(p.examName),
      InfoRow(p.classGrade, p.subject, p.date), MarksTime(MarksSpans(p));
    var t, e, i, d, m := When(ct, bt), When(ce, be), When(ci, bi), When(cd, Divider), When(cm, bm);
    assert HeaderBlocks(p) == t + e + i + d + m;
    forall b
      ensures b in HeaderBlocks(p) <==>
        (ct && b == bt) || (ce && b == be) || (ci && b == bi) || (cd && b == Divider) || (cm && b == bm)
    {
      WhenFacts(ct, bt);
      WhenFacts(ce, be);
      WhenFacts(ci, bi);
      WhenFacts(cd, Divider);
      WhenFacts(cm, bm);
      assert b in t + e + i + d + m <==> b in t || b in e || b in i || b in d || b in m;
    }
  }

  /** A block of the preview comes from the header iff it ranks above the
      body. */
  lemma RenderMembers(p: Paper)
    ensures forall b :: b in Render(p) && Rank(b) < BodyRank ==> b in HeaderBlocks(p)
    ensures forall b :: b in HeaderBlocks(p) ==> b in Render(p) && Rank(b) < BodyRank
  {
    HeaderMembers(p);
    SectionBlocksAreBody(p.sections);
  }

  /** The institution title appears iff the institution name is non-empty,
      at the title font size. */
  lemma TitleShownIffInstitution(p: Paper)
    ensures (exists b :: b in Render(p) && b.Title?) <==> p.institutionName != ""
    ensures p.institutionName != "" ==> Title(p.institutionName, TitleFontSize(p)) in Render(p)
  {
    HeaderMembers(p);
    RenderMembers(p);
    if p.institutionName != "" { assert Title(p.institutionName, TitleFontSize(p)) in HeaderBlocks(p); }
  }

  /** The exam block appears iff the exam name is non-empty. */
  lemma ExamShownIffExamName(p: Paper)
    ensures (exists b :: b in Render(p) && b.Exam?) <==> p.examName != ""
    ensures p.examName != "" ==> Exam(p.examName) in Render(p)
  {
    HeaderMembers(p);
    RenderMembers(p);
    if p.examName != "" { assert Exam(p.examName) in HeaderBlocks(p); }
  }

  /** The info row appears iff class, subject or date is non-empty, with
      its cells in the order class, subject, date. */
  lemma InfoRowShownIffInfo(p: Paper)
    ensures (exists b :: b in Render(p) && b.InfoRow?) <==> (p.classGrade != "" || p.subject != "" || p.date != "")
    ensures forall b :: b in Render(p) && b.InfoRow? ==> b == InfoRow(p.classGrade, p.subject, p.date)
  {
    HeaderMembers(p);
    RenderMembers(p);
    if p.classGrade != "" || p.subject != "" || p.date != "" {
      assert InfoRow(p.classGrade, p.subject, p.date) in HeaderBlocks(p);
    }
  }

  /** The divider appears iff one of the five upper header fields is
      non-empty; total marks and time allowed do not count. */
  lemma DividerShownIffHeaderContent(p: Paper)
    ensures Divider in Render(p) <==> HasHeaderContent(p)
  {
    HeaderMembers(p);
    RenderMembers(p);
  }

  /** The marks/time row appears iff either field is non-empty, holding the
      non-empty ones with total marks first. */
  lemma MarksRowShownIffMarksOrTime(p: Paper)
    ensures (exists b :: b in Render(p) && b.MarksTime?) <==> (p.totalMarks != "" || p.timeAllowed != "")
    ensures forall b :: b in Render(p) && b.MarksTime? ==> b.spans == MarksSpans(p)
  {
    HeaderMembers(p);
    RenderMembers(p);
    if p.totalMarks != "" || p.timeAllowed != "" { assert MarksTime(MarksSpans(p)) in HeaderBlocks(p); }
  }

  /** The divider appears iff a header block above it (title, exam or info
      row) appears. */
  lemma DividerFollowsHeader(p: Paper)
    ensures Divider in Render(p) <==> exists b :: b in Render(p) && (b.Title? || b.Exam? || b.InfoRow?)
  {
    TitleShownIffInstitution(p);
    ExamShownIffExamName(p);
    InfoRowShownIffInfo(p);
    DividerShownIffHeaderContent(p);
  }

  // ---------------------------------------------------------------------
  // Order
  // ---------------------------------------------------------------------

  /** Concatenating two ordered lists keeps the order when the first ranks
      entirely below `r` and the second entirely at or above it. */
  lemma AppendInPageOrder(a: seq<Block>, b: seq<Block>, r: nat)
    requires InPageOrder(a) && InPageOrder(b)
    requires forall x :: x in a ==> Rank(x) < r
    requires forall y :: y in b ==> r <= Rank(y)
    ensures InPageOrder(a + b)
  {
    var c := a + b;
    forall i, j | 0 <= i < j < |c|
      ensures Rank(c[i]) < Rank(c[j]) || (Rank(c[i]) == BodyRank && Rank(c[j]) == BodyRank)
    {
      if j < |a| {
        assert c[i] == a[i] && c[j] == a[j];
      } else if i >= |a| {
        assert c[i] == b[i - |a|] && c[j] == b[j - |a|];
      } else {
        assert c[i] in a && c[j] in b;
      }
    }
  }

  /** The header lists title, exam, info row, divider and marks/time in
      that order, each at most once. */
  lemma HeaderInPageOrder(p: Paper)
    ensures InPageOrder(HeaderBlocks(p))
  {
    var t := When(p.institutionName != "", Title(p.institutionName, TitleFontSize(p)));
    var e := When(p.examName != "", Exam(p.examName));
    var i := When(p.classGrade != "" || p.subject != "" || p.date != "", InfoRow(p.classGrade, p.subject, p.date));
    var d := When(HasHeaderContent(p), Divider);
    var m := When(p.totalMarks != "" || p.timeAllowed != "", MarksTime(MarksSpans(p)));
    assert InPageOrder(t + e) by {
      WhenFacts(p.institutionName != "", Title(p.institutionName, TitleFontSize(p)));
      WhenFacts(p.examName != "", Exam(p.examName));
      AppendInPageOrder(t, e, 1);
    }
    assert forall x :: x in t + e ==> Rank(x) < 2;
    assert InPageOrder(t + e + i) by {
      WhenFacts(p.classGrade != "" || p.subject != "" || p.date != "", InfoRow(p.classGrade, p.subject, p.date));
      AppendInPageOrder(t + e, i, 2);
    }
    assert forall x :: x in t + e + i ==> Rank(x) < 3;
    assert InPageOrder(t + e + i + d) by {
      WhenFacts(HasHeaderContent(p), Divider);
      AppendInPageOrder(t + e + i, d, 3);
    }
    assert forall x :: x in t + e + i + d ==> Rank(x) < 4;
    assert InPageOrder(t + e + i + d + m) by {
      WhenFacts(p.totalMarks != "" || p.timeAllowed != "", MarksTime(MarksSpans(p)));
      AppendInPageOrder(t + e + i + d, m, 4);
    }
    assert HeaderBlocks(p) == t + e + i + d + m;
  }

  /** The preview lists title, exam, info row, divider, marks/time, then the
      sections, each header kind at most once. */
  lemma RenderInPageOrder(p: Paper)
    ensures InPageOrder(Render(p))
  {
    HeaderInPageOrder(p);
    HeaderMembers(p);
    SectionBlocksAreBody(p.sections);
    AppendInPageOrder(HeaderBlocks(p), SectionBlocks(p.sections), BodyRank);
  }

  // ---------------------------------------------------------------------
  // Sections and questions
  // ---------------------------------------------------------------------

  /** Headings distribute over concatenation. */
  lemma {:induction false} HeadingsAppend(a: seq<Block>, b: seq<Block>)
    ensures Headings(a + b) == Headings(a) + Headings(b)
    decreases |a|
  {
    if |a| == 0 {
      assert a + b == b;
    } else {
      assert (a + b)[0] == a[0];
      assert (a + b)[1..] == a[1..] + b;
      HeadingsAppend(a[1..], b);
    }
  }

  /** Items distribute over concatenation. */
  lemma {:induction false} ItemsAppend(a: seq<Block>, b: seq<Block>)
    ensures Items(a + b) == Items(a) + Items(b)
    decreases |a|
  {
    if |a| == 0 {
      assert a + b == b;
    } else {
      assert (a + b)[0] == a[0];
      assert (a + b)[1..] == a[1..] + b;
      ItemsAppend(a[1..], b);
    }
  }

  /** The blocks of one section's questions: no headings, and exactly the
      questions' items in order. */
  lemma {:induction false} QuestionBlocksViews(qs: seq<Question>)
    ensures Headings(QuestionBlocks(qs)) == []
    ensures Items(QuestionBlocks(qs)) == QuestionBlocks(qs)
    decreases |qs|
  {
    if |qs| > 0 {
      QuestionBlocksViews(qs[1..]);
      HeadingsAppend([ItemOf(qs[0])], QuestionBlocks(qs[1..]));
      ItemsAppend([ItemOf(qs[0])], QuestionBlocks(qs[1..]));
    }
  }

  /** The section list yields one heading per section and one item per
      question, both in input order. */
  lemma {:induction false} SectionBlocksViews(secs: seq<Section>)
    ensures Headings(SectionBlocks(secs)) == seq(|secs|, k requires 0 <= k < |secs| => HeadingOf(secs[k]))
    ensures Items(SectionBlocks(secs)) == QuestionBlocks(AllQuestions(secs))
    decreases |secs|
  {
    if |secs| > 0 {
      var start := [SectionStart(HeadingOf(secs[0]))];
      var qb := QuestionBlocks(secs[0].questions);
      var rest := SectionBlocks(secs[1..]);
      SectionBlocksViews(secs[1..]);
      QuestionBlocksViews(secs[0].questions);
      HeadingsAppend(start + qb, rest);
      HeadingsAppend(start, qb);
      ItemsAppend(start + qb, rest);
      ItemsAppend(start, qb);
      QuestionBlocksAppend(secs[0].questions, AllQuestions(secs[1..]));
    }
  }

  /** Question blocks distribute over concatenation. */
  lemma {:induction false} QuestionBlocksAppend(a: seq<Question>, b: seq<Question>)
    ensures QuestionBlocks(a + b) == QuestionBlocks(a) + QuestionBlocks(b)
    decreases |a|
  {
    if |a| == 0 {
      assert a + b == b;
    } else {
      assert (a + b)[0] == a[0];
      assert (a + b)[1..] == a[1..] + b;
      QuestionBlocksAppend(a[1..], b);
    }
  }

  /** Blocks ranked above the body contribute no headings or items. */
  lemma {:induction false} HeaderRankedHasNoBody(bs: seq<Block>)
    requires forall b :: b in bs ==> Rank(b) < BodyRank
    ensures Headings(bs) == [] && Items(bs) == []
    decreases |bs|
  {
    if |bs| > 0 {
      assert bs[0] in bs;
      assert forall b :: b in bs[1..] ==> b in bs;
      HeaderRankedHasNoBody(bs[1..]);
    }
  }

  /** The header contributes no section or question blocks. */
  lemma HeaderHasNoBody(p: Paper)
    ensures Headings(HeaderBlocks(p)) == [] && Items(HeaderBlocks(p)) == []
  {
    HeaderMembers(p);
    HeaderRankedHasNoBody(HeaderBlocks(p));
  }

  /** The preview shows one section block per section and one question
      block per question, in input order; a section's heading appears only
      for a non-empty title, and a question's marks only when non-empty. */
  lemma RenderSectionsInOrder(p: Paper)
    ensures |Headings(Render(p))| == |p.sections|
    ensures forall k :: 0 <= k < |p.sections| ==> Headings(Render(p))[k] == HeadingOf(p.sections[k])
    ensures |Items(Render(p))| == |AllQuestions(p.sections)|
    ensures forall k :: 0 <= k < |AllQuestions(p.sections)| ==> Items(Render(p))[k] == ItemOf(AllQuestions(p.sections)[k])
  {
    HeaderHasNoBody(p);
    SectionBlocksViews(p.sections);
    HeadingsAppend(HeaderBlocks(p), SectionBlocks(p.sections));
    ItemsAppend(HeaderBlocks(p), SectionBlocks(p.sections));
    QuestionBlocksAreItems(AllQuestions(p.sections));
  }

  /** Blocks without a section start belong to the group they follow. */
  lemma {:induction false} UntilSectionSkips(a: seq<Block>, b: seq<Block>)
    requires NoSectionStart(a)
    ensures UntilSection(a + b) == a + UntilSection(b)
    ensures Groups(a + b) == Groups(b)
    decreases |a|
  {
    if |a| == 0 {
      assert a + b == b;
    } else {
      assert (a + b)[0] == a[0];
      assert (a + b)[1..] == a[1..] + b;
      assert !a[0].SectionStart?;
      UntilSectionSkips(a[1..], b);
      assert a == [a[0]] + a[1..];
    }
  }

  /** Question blocks never start a section. */
  lemma QuestionBlocksNoSectionStart(qs: seq<Question>)
    ensures NoSectionStart(QuestionBlocks(qs))
  {
    QuestionBlocksAreItems(qs);
  }

  /** A section start opens a group holding what follows it. */
  lemma GroupsCons(h: Option<Heading>, t: seq<Block>)
    ensures Groups([SectionStart(h)] + t) == [Group(h, UntilSection(t))] + Groups(t)
  {
    var bs := [SectionStart(h)] + t;
    assert bs[0] == SectionStart(h) && bs[1..] == t;
  }

  /** The section list is empty or opens with a section start. */
  lemma SectionBlocksOpen(secs: seq<Section>)
    ensures UntilSection(SectionBlocks(secs)) == []
  {
  }

  /** The first section's group, then the groups of the rest. */
  lemma SectionBlocksGroupsStep(secs: seq<Section>)
    requires |secs| > 0
    ensures Groups(SectionBlocks(secs))
         == [Group(HeadingOf(secs[0]), QuestionBlocks(secs[0].questions))] + Groups(SectionBlocks(secs[1..]))
  {
    var qb := QuestionBlocks(secs[0].questions);
    var rest := SectionBlocks(secs[1..]);
    QuestionBlocksNoSectionStart(secs[0].questions);
    UntilSectionSkips(qb, rest);
    SectionBlocksOpen(secs[1..]);
    assert qb + [] == qb;
    assert SectionBlocks(secs) == [SectionStart(HeadingOf(secs[0]))] + (qb + rest);
    GroupsCons(HeadingOf(secs[0]), qb + rest);
  }

  /** Each section's group is its own heading followed by exactly its own
      questions' blocks, in input order. */
  lemma {:induction false} SectionBlocksGroups(secs: seq<Section>)
    ensures Groups(SectionBlocks(secs))
         == seq(|secs|, k requires 0 <= k < |secs| => Group(HeadingOf(secs[k]), QuestionBlocks(secs[k].questions)))
    decreases |secs|
  {
    if |secs| > 0 {
      SectionBlocksGroups(secs[1..]);
      SectionBlocksGroupsStep(secs);
      var gs := Groups(SectionBlocks(secs));
      var tail := Groups(SectionBlocks(secs[1..]));
      assert |gs| == |secs|;
      forall k | 0 <= k < |secs|
        ensures gs[k] == Group(HeadingOf(secs[k]), QuestionBlocks(secs[k].questions))
      {
        if k > 0 {
          assert gs[k] == tail[k - 1];
          assert secs[1..][k - 1] == secs[k];
        }
      }
    }
  }

  /** The header starts no section. */
  lemma HeaderNoSectionStart(p: Paper)
    ensures NoSectionStart(HeaderBlocks(p))
  {
    HeaderMembers(p);
    forall i | 0 <= i < |HeaderBlocks(p)|
      ensures !HeaderBlocks(p)[i].SectionStart?
    {
      assert HeaderBlocks(p)[i] in HeaderBlocks(p);
    }
  }

  /** On the rendered page, section `k` is shown as its heading followed by
      exactly the blocks of its own questions, up to the next section. */
  lemma RenderGroups(p: Paper)
    ensures Groups(Render(p))
         == seq(|p.sections|, k requires 0 <= k < |p.sections| => Group(HeadingOf(p.sections[k]), QuestionBlocks(p.sections[k].questions)))
  {
    HeaderNoSectionStart(p);
    UntilSectionSkips(HeaderBlocks(p), SectionBlocks(p.sections));
    SectionBlocksGroups(p.sections);
  }
}

=== FILE: session.dfy ===
/** The controller together with its outstanding asynchronous work
    (App.tsx:41-82, 151-173). Every accepted upload starts an attempt: a
    file read plus image decode (`Decoding`), then, once compression has
    finished, a remote call racing a 30-second timer (`Racing`). User events
    are only possible while the control that issues them is on screen. */
module Session {
  import opened Wrappers
  import opened Document
  import opened Editor
  import Transcription

  /** Where one upload attempt stands. `Racing(timerArmed)` has the call
      outstanding; its timer is armed until it fires or is cleared. */
  datatype Job = Decoding | Racing(timerArmed: bool) | Finished

  /** The controller state and every attempt started so far, oldest first. */
  datatype World = World(ui: State, jobs: seq<Job>)

  /** Nothing loaded, nothing outstanding. */
  const Start: World := World(Initial, [])

  /** Something that happens: a user action, or the continuation of attempt
      `job` (its image decoded, its timer fired, its call settled with the
      outcome of `processImage`). */
  datatype Occurrence =
    | User(event: Event)
    | Decoded(job: nat)
    | Fired(job: nat)
    | Settled(job: nat, outcome: Result<Paper, string>)

  /** The uploader is on screen (App.tsx:151). */
  predicate UploaderShown(s: State) {
    s.content.None? && (s.status == Idle || s.status == Error)
  }

  /** The result view with its toolbar is on screen (App.tsx:125, 207). */
  predicate ResultShown(s: State) {
    s.content.Some? && s.status == Success
  }

  /** Whether `o` can happen now: user events need their control on screen,
      continuations need their attempt at the matching stage. */
  predicate Enabled(w: World, o: Occurrence)
    ensures Enabled(w, o) && o.User? ==> UploaderShown(w.ui) || ResultShown(w.ui)
    ensures Enabled(w, o) && !o.User? ==> o.job < |w.jobs| && w.jobs[o.job] != Finished
  {
    match o
    case User(e) =>
      (match e
       case Upload(_) => UploaderShown(w.ui)
       case Reset => ResultShown(w.ui) || (UploaderShown(w.ui) && w.ui.error.Some?)
       case SetEditing(_) => ResultShown(w.ui)
       case EditHeader(_, _) => ResultShown(w.ui) && w.ui.isEditing
       case EditFontSize(_) => ResultShown(w.ui) && w.ui.isEditing
       case EditQuestion(si, qi, _) => ResultShown(w.ui) && w.ui.isEditing && QuestionInRange(w.ui.content, si, qi)
       case _ => false)
    case Decoded(k) => k < |w.jobs| && w.jobs[k] == Decoding
    case Fired(k) => k < |w.jobs| && w.jobs[k] == Racing(true)
    case Settled(k, _) => k < |w.jobs| && w.jobs[k].Racing?
  }

  /** The controller event a settled call delivers. */
  function Delivered(outcome: Result<Paper, string>): Event {
    match outcome
    case Ok(doc) => CallSucceeded(doc)
    case Err(message) => CallFailed(message)
  }

  /** The world after an enabled occurrence. A settled call clears its own
      timer; an accepted readable upload starts a new attempt. */
  function Occur(w: World, o: Occurrence): (r: World)
    requires Enabled(w, o)
    ensures |w.jobs| <= |r.jobs| <= |w.jobs| + 1
    ensures |r.jobs| == |w.jobs| + 1 ==> r.jobs[|w.jobs|] == Decoding && r.ui.inFlight
    ensures forall k :: 0 <= k < |w.jobs| && w.jobs[k] == Finished ==> r.jobs[k] == Finished
  {
    match o
    case User(e) =>
      var started := e.Upload? && e.readable && !w.ui.inFlight;
      World(Step(w.ui, e), if started then w.jobs + [Decoding] else w.jobs)
    case Decoded(k) => World(Step(w.ui, CompressDone), w.jobs[k := Racing(true)])
    case Fired(k) => World(Step(w.ui, TimerFired), w.jobs[k := Racing(false)])
    case Settled(k, outcome) => World(Step(w.ui, Delivered(outcome)), w.jobs[k := Finished])
  }

  /** Replays occurrences in order; `None` if one of them is not enabled
      when its turn comes. */
  function Replay(w: World, os: seq<Occurrence>): Option<World>
    decreases |os|
  {
    if |os| == 0 then Some(w)
    else if Enabled(w, os[0]) then Replay(Occur(w, os[0]), os[1..])
    else None
  }

  /** The attempt still owns the latch: decoding, or racing an armed timer. */
  predicate Live(j: Job) {
    j == Decoding || j == Racing(true)
  }

  /** The number of calls outstanding. */
  function CallsInFlight(jobs: seq<Job>): nat
    decreases |jobs|
  {
    if |jobs| == 0 then 0 else (if jobs[0].Racing? then 1 else 0) + CallsInFlight(jobs[1..])
  }

  /** The invariant the code does keep: the latch is set exactly while the
      status is `processing`, and then the newest attempt is still live. */
  predicate Consistent(w: World) {
    && LatchMatchesStatus(w.ui)
    && (w.ui.inFlight ==> |w.jobs| > 0 && Live(w.jobs[|w.jobs| - 1]))
  }

  // ---------------------------------------------------------------------
  // The invariant
  // ---------------------------------------------------------------------

  /** Every enabled occurrence keeps the invariant. */
  lemma OccurKeepsConsistent(w: World, o: Occurrence)
    requires Consistent(w) && Enabled(w, o)
    ensures Consistent(Occur(w, o))
  {
    StepKeepsLatchMatchingStatus(w.ui, if o.User? then o.event else if o.Decoded? then CompressDone
      else if o.Fired? then TimerFired else Delivered(o.outcome));
    var w' := Occur(w, o);
    if w'.ui.inFlight {
      match o
      case User(e) =>
        assert e.Upload? || e.EditHeader? || e.EditFontSize? || e.EditQuestion? || e.SetEditing?;
      case Decoded(k) =>
        assert w.ui.inFlight;
        assert |w'.jobs| == |w.jobs|;
        if k != |w.jobs| - 1 {
          assert w'.jobs[|w'.jobs| - 1] == w.jobs[|w.jobs| - 1];
        }
      case Fired(k) =>
      case Settled(k, outcome) =>
    }
  }

  /** The invariant holds in every world reached by enabled occurrences. */
  lemma {:induction false} ReplayKeepsConsistent(w: World, os: seq<Occurrence>)
    requires Consistent(w)
    requires Replay(w, os).Some?
    ensures Consistent(Replay(w, os).value)
    decreases |os|
  {
    if |os| > 0 {
      OccurKeepsConsistent(w, os[0]);
      ReplayKeepsConsistent(Occur(w, os[0]), os[1..]);
    }
  }

  /** While a transcription is in flight the uploader is hidden, so no
      upload can even be issued; and an issued one would be ignored. */
  lemma NoUploadWhileInFlight(w: World, readable: bool)
    requires Consistent(w) && w.ui.inFlight
    ensures !Enabled(w, User(Upload(readable)))
    ensures Step(w.ui, Upload(readable)) == w.ui
  {
  }

  // ---------------------------------------------------------------------
  // Behaviours of the code as written
  // ---------------------------------------------------------------------

  /** No timer is armed before compression finishes and compression has no
      failure path: while no call is outstanding and the status is
      `processing`, nothing but a decode completion can ever happen — no
      control is on screen (not even reset) and no timer or call exists. */
  lemma StalledWithoutDecode(w: World, o: Occurrence)
    requires w.ui.status == Processing
    requires forall k :: 0 <= k < |w.jobs| ==> !w.jobs[k].Racing?
    requires !o.Decoded?
    ensures !Enabled(w, o)
  {
  }

  /** Hence, with no call in flight, a trace that decodes no image at all
      leaves the world, latch included, exactly as it is. */
  lemma {:induction false} UndecodableImageHangs(w: World, os: seq<Occurrence>)
    requires w.ui.status == Processing && w.ui.inFlight
    requires forall k :: 0 <= k < |w.jobs| ==> !w.jobs[k].Racing?
    requires forall i :: 0 <= i < |os| ==> !os[i].Decoded?
    ensures Replay(w, os) == if |os| == 0 then Some(w) else None
  {
    if |os| > 0 {
      StalledWithoutDecode(w, os[0]);
    }
  }

  /** When every earlier attempt has finished, the newest attempt's image
      never decoding is enough: whatever else is attempted, nothing can
      happen and the world stays exactly as it is. */
  lemma NewestUndecodableImageHangs(w: World, os: seq<Occurrence>)
    requires w.ui.status == Processing
    requires |w.jobs| > 0 && w.jobs[|w.jobs| - 1] == Decoding
    requires forall k :: 0 <= k < |w.jobs| - 1 ==> w.jobs[k] == Finished
    requires forall i :: 0 <= i < |os| ==> os[i] != Decoded(|w.jobs| - 1)
    ensures Replay(w, os) == if |os| == 0 then Some(w) else None
  {
  }

  /** Replaying a single enabled occurrence before the rest. */
  lemma ReplayCons(w: World, o: Occurrence, rest: seq<Occurrence>)
    requires Enabled(w, o)
    ensures Replay(w, [o] + rest) == Replay(Occur(w, o), rest)
  {
    assert ([o] + rest)[0] == o;
    assert ([o] + rest)[1..] == rest;
  }

  /** Replaying two traces one after the other. */
  lemma {:induction false} ReplayAppend(w: World, a: seq<Occurrence>, b: seq<Occurrence>)
    ensures Replay(w, a + b) == if Replay(w, a).Some? then Replay(Replay(w, a).value, b) else None
    decreases |a|
  {
    if |a| == 0 {
      assert a + b == b;
    } else {
      assert (a + b)[0] == a[0];
      assert (a + b)[1..] == a[1..] + b;
      if Enabled(w, a[0]) {
        ReplayAppend(Occur(w, a[0]), a[1..], b);
      }
    }
  }

  /** The trace of one upload whose timer fires before its call settles. */
  const TimedOutTrace: seq<Occurrence> := [User(Upload(true)), Decoded(0), Fired(0)]

  /** The world after `TimedOutTrace`: the error screen, call still out. */
  const TimedOut: World := World(State(Error, None, Some(TimeoutMessage), false, false), [Racing(false)])

  /** A first upload times out while its call is still outstanding. */
  lemma TimeoutLeavesCallOutstanding()
    ensures Replay(Start, TimedOutTrace) == Some(TimedOut)
    ensures CallsInFlight(TimedOut.jobs) == 1 && !TimedOut.ui.inFlight
  {
    var w1 := World(State(Processing, None, None, false, true), [Decoding]);
    var w2 := World(w1.ui, [Racing(true)]);
    assert Occur(Start, User(Upload(true))) == w1;
    assert Occur(w1, Decoded(0)) == w2;
    assert Occur(w2, Fired(0)) == TimedOut;
    ReplayCons(w2, Fired(0), []);
    assert [Fired(0)] + [] == [Fired(0)];
    ReplayCons(w1, Decoded(0), [Fired(0)]);
    assert [Decoded(0)] + [Fired(0)] == [Decoded(0), Fired(0)];
    ReplayCons(Start, User(Upload(true)), [Decoded(0), Fired(0)]);
    assert [User(Upload(true))] + [Decoded(0), Fired(0)] == TimedOutTrace;
    assert TimedOut.jobs[1..] == [];
  }

  /** A call that settles after its timer fired is not discarded: a late
      success replaces the timeout error screen with the result, while the
      timeout message stays in `error`. */
  lemma LateSuccessOverwritesTimeout(doc: Paper)
    ensures Replay(Start, TimedOutTrace + [Settled(0, Ok(doc))])
         == Some(World(State(Success, Some(doc.(mainTitleFontSize := Some(LoadedFontSize))), Some(TimeoutMessage), false, false), [Finished]))
  {
    TimeoutLeavesCallOutstanding();
    ReplayAppend(Start, TimedOutTrace, [Settled(0, Ok(doc))]);
    ReplayCons(TimedOut, Settled(0, Ok(doc)), []);
    assert [Settled(0, Ok(doc))] + [] == [Settled(0, Ok(doc))];
    assert Delivered(Ok(doc)) == CallSucceeded(doc);
    assert TimedOut.jobs[0 := Finished] == [Finished];
  }

  /** After a timeout the uploader is back, so a second call can start while
      the first is outstanding; when the first one fails, its `finally`
      clears the latch the second attempt set. */
  lemma SecondAttemptLosesLatch(message: string)
    ensures Replay(TimedOut, [User(Upload(true)), Decoded(1), Settled(0, Err(message))])
         == Some(World(State(Error, None, Some(if message == "" then FailureFallback else message), false, false),
                       [Finished, Racing(true)]))
  {
    var w4 := World(State(Processing, None, None, false, true), [Racing(false), Decoding]);
    var w5 := World(w4.ui, [Racing(false), Racing(true)]);
    var w6 := World(State(Error, None, Some(if message == "" then FailureFallback else message), false, false),
                    [Finished, Racing(true)]);
    assert Occur(TimedOut, User(Upload(true))) == w4;
    assert Occur(w4, Decoded(1)) == w5;
    assert Occur(w5, Settled(0, Err(message))) == w6;
    ReplayCons(w5, Settled(0, Err(message)), []);
    assert [Settled(0, Err(message))] + [] == [Settled(0, Err(message))];
    ReplayCons(w4, Decoded(1), [Settled(0, Err(message))]);
    assert [Decoded(1)] + [Settled(0, Err(message))] == [Decoded(1), Settled(0, Err(message))];
    ReplayCons(TimedOut, User(Upload(true)), [Decoded(1), Settled(0, Err(message))]);
    assert [User(Upload(true))] + [Decoded(1), Settled(0, Err(message))]
        == [User(Upload(true)), Decoded(1), Settled(0, Err(message))];
  }

  /** Single-flight does not hold: continuing the trace above, the uploader
      accepts a third upload and two calls are in flight at once. */
  lemma OverlappingCalls(message: string)
    ensures
      var os := TimedOutTrace + [User(Upload(true)), Decoded(1), Settled(0, Err(message))]
                              + [User(Upload(true)), Decoded(2)];
      && Replay(Start, os).Some?
      && Replay(Start, os).value.jobs == [Finished, Racing(true), Racing(true)]
      && CallsInFlight(Replay(Start, os).value.jobs) == 2
      && Replay(Start, os).value.ui.inFlight
  {
    var a := TimedOutTrace;
    var b := [User(Upload(true)), Decoded(1), Settled(0, Err(message))];
    var c := [User(Upload(true)), Decoded(2)];
    TimeoutLeavesCallOutstanding();
    SecondAttemptLosesLatch(message);
    var w6 := World(State(Error, None, Some(if message == "" then FailureFallback else message), false, false),
                    [Finished, Racing(true)]);
    ReplayAppend(Start, a, b);
    assert Replay(Start, a + b) == Some(w6);
    var w7 := World(State(Processing, None, None, false, true), [Finished, Racing(true), Decoding]);
    var w8 := World(w7.ui, [Finished, Racing(true), Racing(true)]);
    assert Occur(w6, User(Upload(true))) == w7;
    assert Occur(w7, Decoded(2)) == w8;
    ReplayCons(w7, Decoded(2), []);
    assert [Decoded(2)] + [] == [Decoded(2)];
    ReplayCons(w6, User(Upload(true)), [Decoded(2)]);
    assert [User(Upload(true))] + [Decoded(2)] == c;
    ReplayAppend(Start, a + b, c);
    assert CallsInFlight(w8.jobs) == 2 by {
      assert w8.jobs[1..] == [Racing(true), Racing(true)];
      assert w8.jobs[1..][1..] == [Racing(true)];
      assert w8.jobs[1..][1..][1..] == [];
    }
  }

  /** Nothing can ever happen in `w`: no control is on screen and no
      attempt has a continuation left. */
  ghost predicate Stuck(w: World) {
    forall o :: !Enabled(w, o)
  }

  /** A dead end the code can reach: after a timeout a second upload
      starts, the first call then succeeds late and the second fails. A
      document is loaded with status `error`, which neither the uploader,
      the result view nor the toolbar accepts, and nothing is outstanding. */
  lemma LoadedErrorDeadEnd(doc: Paper, message: string)
    ensures
      var loaded := Some(doc.(mainTitleFontSize := Some(LoadedFontSize)));
      var shown := Some(if message == "" then FailureFallback else message);
      var w := World(State(Error, loaded, shown, false, false), [Finished, Finished]);
      && Replay(TimedOut, [User(Upload(true)), Decoded(1), Settled(0, Ok(doc)), Settled(1, Err(message))]) == Some(w)
      && Stuck(w)
  {
    var loaded := Some(doc.(mainTitleFontSize := Some(LoadedFontSize)));
    var shown := Some(if message == "" then FailureFallback else message);
    var w4 := World(State(Processing, None, None, false, true), [Racing(false), Decoding]);
    var w5 := World(w4.ui, [Racing(false), Racing(true)]);
    var w6 := World(State(Success, loaded, None, false, false), [Finished, Racing(true)]);
    var w7 := World(State(Error, loaded, shown, false, false), [Finished, Finished]);
    assert Occur(TimedOut, User(Upload(true))) == w4;
    assert Occur(w4, Decoded(1)) == w5;
    assert Delivered(Ok(doc)) == CallSucceeded(doc);
    assert Occur(w5, Settled(0, Ok(doc))) == w6;
    assert Occur(w6, Settled(1, Err(message))) == w7;
    ReplayCons(w6, Settled(1, Err(message)), []);
    assert [Settled(1, Err(message))] + [] == [Settled(1, Err(message))];
    ReplayCons(w5, Settled(0, Ok(doc)), [Settled(1, Err(message))]);
    assert [Settled(0, Ok(doc))] + [Settled(1, Err(message))] == [Settled(0, Ok(doc)), Settled(1, Err(message))];
    ReplayCons(w4, Decoded(1), [Settled(0, Ok(doc)), Settled(1, Err(message))]);
    assert [Decoded(1)] + [Settled(0, Ok(doc)), Settled(1, Err(message))]
        == [Decoded(1), Settled(0, Ok(doc)), Settled(1, Err(message))];
    ReplayCons(TimedOut, User(Upload(true)), [Decoded(1), Settled(0, Ok(doc)), Settled(1, Err(message))]);
    assert [User(Upload(true))] + [Decoded(1), Settled(0, Ok(doc)), Settled(1, Err(message))]
        == [User(Upload(true)), Decoded(1), Settled(0, Ok(doc)), Settled(1, Err(message))];
  }

  /** A call settling with a `processImage` failure always shows an error
      beginning with the fixed prefix, never the controller's fallback. */
  lemma ServiceFailureShown(w: World, k: nat, image: string,
                            call: string -> Transcription.Reply,
                            parse: string -> Result<Transcription.Response, string>)
    requires Enabled(w, Settled(k, Transcription.ProcessImage(image, call, parse)))
    requires Transcription.ProcessImage(image, call, parse).Err?
    ensures Occur(w, Settled(k, Transcription.ProcessImage(image, call, parse))).ui.status == Error
    ensures Transcription.IsWrapped(Occur(w, Settled(k, Transcription.ProcessImage(image, call, parse))).ui.error.value)
  {
  }
}

=== FILE: transcription.dfy ===
/** The transcription client (`processImage` in services/geminiService.ts):
    the image payload sent to the remote model, the empty-body check, the
    defaulting of the parsed response and the wrapping of every failure.
    The remote call and `JSON.parse` are foreign and come in as parameters. */
module Transcription {
  import opened Wrappers
  import opened Document

  /** The character the data-URI payload is split on. */
  const Separator: char := ','

  /** The error raised when the service answers with an empty body. */
  const NoDataMessage: string := "No transcription data returned."

  /** The prefix put in front of every error leaving `processImage`. */
  const ErrorPrefix: string := "OCR Failed: "

  /** What follows the prefix when the underlying error has no message. */
  const ErrorFallback: string := "Check image clarity."

  // ---------------------------------------------------------------------
  // Payload extraction: `base64Image.split(',')[1] || base64Image`
  // ---------------------------------------------------------------------

  /** Concatenates the pieces with `sep` between consecutive ones. */
  function Join(parts: seq<string>, sep: char): string
    decreases |parts|
  {
    if |parts| == 0 then ""
    else if |parts| == 1 then parts[0]
    else parts[0] + [sep] + Join(parts[1..], sep)
  }

  /** JavaScript's `s.split(sep)` for a one-character separator: the maximal
      separator-free pieces, always at least one, which join back to `s`. */
  function Split(s: string, sep: char): (parts: seq<string>)
    ensures |parts| >= 1
    ensures forall i :: 0 <= i < |parts| ==> sep !in parts[i]
    ensures Join(parts, sep) == s
    decreases |s|
  {
    if |s| == 0 then [""]
    else
      var rest := Split(s[1..], sep);
      if s[0] == sep then
        assert ([""] + rest)[1..] == rest;
        [""] + rest
      else
        var parts := [[s[0]] + rest[0]] + rest[1..];
        assert |rest| > 1 ==> parts[1..] == rest[1..];
        assert |rest| > 1 ==> Join(rest, sep) == rest[0] + [sep] + Join(rest[1..], sep);
        assert s == [s[0]] + s[1..];
        parts
  }

  /** The image data actually sent: the second comma-separated field of the
      data URI when that field is non-empty, otherwise the whole input. */
  function Payload(image: string): (r: string)
    ensures r == image || (r != "" && Separator !in r)
    ensures r != image ==> |Split(image, Separator)| >= 2 && r == Split(image, Separator)[1]
    ensures |Split(image, Separator)| >= 2 && Split(image, Separator)[1] != "" ==> r == Split(image, Separator)[1]
  {
    var parts := Split(image, Separator);
    if |parts| >= 2 && parts[1] != "" then parts[1] else image
  }

  /** A separator-free string is a single piece. */
  lemma {:induction false} SplitWithoutSeparator(s: string, sep: char)
    requires sep !in s
    ensures Split(s, sep) == [s]
    decreases |s|
  {
    if |s| > 0 {
      SplitWithoutSeparator(s[1..], sep);
      assert [s[0]] + s[1..] == s;
    }
  }

  /** Splitting after a separator-free prefix and one separator yields that
      prefix followed by the pieces of the remainder. */
  lemma {:induction false} SplitAfterPrefix(p: string, sep: char, t: string)
    requires sep !in p
    ensures Split(p + [sep] + t, sep) == [p] + Split(t, sep)
    decreases |p|
  {
    var s := p + [sep] + t;
    if |p| == 0 {
      assert s[0] == sep && s[1..] == t;
    } else {
      assert s[1..] == p[1..] + [sep] + t;
      SplitAfterPrefix(p[1..], sep, t);
      assert [p[0]] + p[1..] == p;
    }
  }

  /** An input without a comma is sent unchanged. */
  lemma PayloadWithoutComma(image: string)
    requires Separator !in image
    ensures Payload(image) == image
  {
    SplitWithoutSeparator(image, Separator);
  }

  /** For `p,x` and `p,x,rest` with `p` and `x` comma-free and `x`
      non-empty, the payload is exactly `x`. */
  lemma PayloadStripsPrefix(p: string, x: string, rest: string)
    requires Separator !in p && Separator !in x && x != ""
    ensures Payload(p + [Separator] + x) == x
    ensures Payload(p + [Separator] + x + [Separator] + rest) == x
  {
    SplitAfterPrefix(p, Separator, x);
    SplitWithoutSeparator(x, Separator);
    assert Split(p + [Separator] + x, Separator) == [p, x];
    SplitAfterPrefix(x, Separator, rest);
    assert p + [Separator] + x + [Separator] + rest == p + [Separator] + (x + [Separator] + rest);
    SplitAfterPrefix(p, Separator, x + [Separator] + rest);
  }

  /** When the field after the first comma is empty (`p,` or `p,,…`), the
      `||` falls back to the whole input. */
  lemma PayloadKeepsEmptyField(p: string, t: string)
    requires Separator !in p
    requires t == "" || t[0] == Separator
    ensures Payload(p + [Separator] + t) == p + [Separator] + t
  {
    SplitAfterPrefix(p, Separator, t);
  }

  // ---------------------------------------------------------------------
  // Response normalisation
  // ---------------------------------------------------------------------

  /** The parsed JSON body, each key possibly absent. */
  datatype Response = Response(
    institutionName: Option<string>,
    examName: Option<string>,
    subject: Option<string>,
    classGrade: Option<string>,
    totalMarks: Option<string>,
    timeAllowed: Option<string>,
    date: Option<string>,
    sections: Option<seq<Section>>,
    mainTitleFontSize: Option<int>)

  /** Reads one header key of a response. */
  function Field(resp: Response, f: HeaderField): Option<string> {
    match f
    case InstitutionName => resp.institutionName
    case ExamName => resp.examName
    case Subject => resp.subject
    case ClassGrade => resp.classGrade
    case TotalMarks => resp.totalMarks
    case TimeAllowed => resp.timeAllowed
    case Date => resp.date
  }

  /** JavaScript's `v || ""` on an optional string. */
  function OrEmpty(v: Option<string>): (r: string)
    ensures v.Some? && v.value != "" ==> r == v.value
    ensures v.None? || v.value == "" ==> r == ""
  {
    v.GetOr("")
  }

  /** Builds the document from a parsed response: every header field is
      present (the parsed value, or `""`), `sections` is passed through or
      defaults to empty, and no title font size is carried over. */
  function Normalize(resp: Response): (p: Paper)
    ensures forall f: HeaderField :: Field(resp, f).Some? && Field(resp, f).value != "" ==> Header(p, f) == Field(resp, f).value
    ensures forall f: HeaderField :: Field(resp, f).None? || Field(resp, f).value == "" ==> Header(p, f) == ""
    ensures resp.sections.Some? ==> p.sections == resp.sections.value
    ensures resp.sections.None? ==> p.sections == []
    ensures p.mainTitleFontSize.None?
  {
    Paper(
      OrEmpty(resp.institutionName),
      OrEmpty(resp.examName),
      OrEmpty(resp.subject),
      OrEmpty(resp.classGrade),
      OrEmpty(resp.totalMarks),
      OrEmpty(resp.timeAllowed),
      OrEmpty(resp.date),
      resp.sections.GetOr([]),
      None)
  }

  /** A document written back as a response with every key present. */
  function AsResponse(p: Paper): Response {
    Response(
      Some(p.institutionName), Some(p.examName), Some(p.subject), Some(p.classGrade),
      Some(p.totalMarks), Some(p.timeAllowed), Some(p.date), Some(p.sections),
      p.mainTitleFontSize)
  }

  /** Normalising a fully-populated response gives back the document,
      minus its title font size. */
  lemma NormalizeRoundTrip(p: Paper)
    ensures Normalize(AsResponse(p)) == p.(mainTitleFontSize := None)
  {
  }

  /** Normalising an already-normalised document changes nothing. */
  lemma NormalizeIdempotent(resp: Response)
    ensures Normalize(AsResponse(Normalize(resp))) == Normalize(resp)
  {
    NormalizeRoundTrip(Normalize(resp));
  }

  // ---------------------------------------------------------------------
  // Error wrapping and the whole call
  // ---------------------------------------------------------------------

  /** A message of the form `OCR Failed: <something non-empty>`. */
  predicate IsWrapped(message: string) {
    |message| > |ErrorPrefix| && message[..|ErrorPrefix|] == ErrorPrefix
  }

  /** `OCR Failed: ${error.message || 'Check image clarity.'}` */
  function Wrap(message: string): (r: string)
    ensures IsWrapped(r)
    ensures message != "" ==> r[|ErrorPrefix|..] == message
    ensures message == "" ==> r[|ErrorPrefix|..] == ErrorFallback
  {
    ErrorPrefix + (if message == "" then ErrorFallback else message)
  }

  /** Distinct non-empty underlying messages stay distinguishable. */
  lemma WrapInjective(a: string, b: string)
    requires a != "" && b != ""
    requires Wrap(a) == Wrap(b)
    ensures a == b
  {
    assert a == Wrap(a)[|ErrorPrefix|..];
  }

  /** What the remote service did: raised an error with a message, or
      answered with a body (`response.text`, possibly undefined). */
  datatype Reply = Rejected(message: string) | Returned(text: Option<string>)

  /** The reply carries no usable body. */
  predicate NoBody(reply: Reply) {
    reply.Returned? && (reply.text.None? || reply.text.value == "")
  }

  /** `processImage`: sends the payload of `image` through `call`, rejects
      an empty body, parses it with `parse`, and normalises the result;
      every failure is re-raised behind the fixed prefix. */
  function ProcessImage(image: string, call: string -> Reply, parse: string -> Result<Response, string>): (r: Result<Paper, string>)
    ensures r.Err? ==> IsWrapped(r.error)
    ensures r.Ok? ==> r.value.mainTitleFontSize.None?
    ensures call(Payload(image)).Rejected? ==> r == Err(Wrap(call(Payload(image)).message))
    ensures NoBody(call(Payload(image))) ==> r == Err(ErrorPrefix + NoDataMessage)
    ensures call(Payload(image)).Returned? && !NoBody(call(Payload(image))) && parse(call(Payload(image)).text.value).Err?
        ==> r == Err(Wrap(parse(call(Payload(image)).text.value).error))
    ensures r.Ok? <==>
      (&& call(Payload(image)).Returned?
       && !NoBody(call(Payload(image)))
       && parse(call(Payload(image)).text.value).Ok?)
    ensures r.Ok? ==> r.value == Normalize(parse(call(Payload(image)).text.value).value)
  {
    match call(Payload(image))
    case Rejected(m) => Err(Wrap(m))
    case Returned(text) =>
      if text.None? || text.value == "" then Err(Wrap(NoDataMessage))
      else
        match parse(text.value)
        case Err(m) => Err(Wrap(m))
        case Ok(resp) => Ok(Normalize(resp))
  }
}

=== FILE: wrappers.dfy ===
/** Optional values and success/failure results, standing in for the
    source's `undefined`/`null` and its thrown errors. */
module Wrappers {

  /** A value that may be absent (`undefined` or `null` in the source). */
  datatype Option<+T> = None | Some(value: T) {

    /** The wrapped value, or `default` when absent. */
    function GetOr(default: T): T {
      match this
      case Some(v) => v
      case None => default
    }
  }

  /** The outcome of an operation that either returns a value or throws. */
  datatype Result<+R, +E> = Ok(value: R) | Err(error: E)
}
